=== FILE: README.md ===
# Veritas decision layer, in Dafny

Veritas is a Streamlit script (`brain.py`) that rates how trustworthy a product is. It takes a
product link or a screenshot, asks a Gemini model for a JSON verdict, shows it, and keeps the
session's past scans in a sidebar. Most of the script is UI. This project models the
deterministic layer under the UI, as pure functions over immutable data:

- **Response cleanup** (`ResponseCleanup`): `clean_and_parse_json`. It strips ```` ```json ````
  and ```` ``` ```` markers in one left-to-right `re.sub` pass and trims white space. Then it
  decodes. If that fails, it decodes the greedy first-`{`-to-last-`}` span. If that also fails,
  the result is `{}`. The JSON decoder is a parameter: `decode(t) == None` means `json.loads`
  raised.
- **Model fallback** (`ModelFallback`): `generate_with_fallback` as a fold over the models
  `gemini-1.5-flash` and `gemini-1.5-pro`. Each call's outcome is supplied per model, as a
  reply or an error message. An error whose message contains `429` moves on to the next model.
  Any other error is raised again at once. When the list runs out, the error is
  "AI is overloaded. Try again in 10s.".
- **Block routing** (`Routing`): a scraped page is *blocked* when it is shorter than 300
  characters or its lower-cased text contains `verify`. A blocked page with a (non-empty)
  screenshot URL is read from the screenshot. A blocked page without one raises. Any other page
  is analysed from its first 15000 characters. A failed scrape (`None`) reads as empty
  content, so it is blocked.
- **Records and colours** (`Records`): the history record with its defaults (`source` from
  `product_name`, else the page label; `score` 0; `verdict` `"Analyzed"`). Also the two score
  colourings. The sidebar is red for `s <= 45`. The result view is red for `s < 45`. Both are
  orange below 80 and green from 80. So they disagree only at 45.
- **Analysis run** (`Analysis`): the `try` block of brain.py:139-187. It gathers a reply along
  the link path or the image path, parses it and builds the record. Every exception raised
  there ends the run with the exception's message and without a record. The exceptions are:
  blocked without screenshot, a non-429 model error, every model overloaded, and a parsed
  value that is not an object. The last one is Python's `AttributeError`, for example
  `'list' object has no attribute 'get'`.
- **Session** (`SessionState`): the history, the record being played back, the two inputs
  and the sidebar buttons last drawn, with these transitions: the two input resets, a
  click on a sidebar button, close, Clear History, and a rerun. Every rerun draws the
  sidebar first. Each button is bound to its record when it is drawn (brain.py:50), before
  the same rerun appends (brain.py:176), so right after an analysis the buttons on screen
  still list the history from before it. The sidebar compares each listed score with 45 (brain.py:54), so a score
  that is not a number or a boolean raises a `TypeError` there. That ends the rerun before
  the trigger logic and before Clear History, and nothing can remove the record any more.
  Otherwise a set playback forces the playback trigger, and a record is appended exactly
  when a new analysis completes. The result view compares the score with 45 (brain.py:195)
  and raises in the same way. The sidebar lists the history newest first. The playback
  record is always an entry of the history.

Two facts were found by proving them:
- One `re.sub` pass already leaves no ```` ``` ```` behind, even where deleting a marker brings
  backticks from both sides together. So the cleanup is idempotent, and parsing cleaned text
  gives the same value as parsing the raw reply.
- A reply wrapped in a ```` ```json ... ``` ```` block parses like the bare reply, provided the
  reply has no backtick of its own.

brain.py deletes the fence markers rather than extracting the fenced block, so text outside a
fenced block stays in the reply the decoder sees.

Files: `basics.dfy` (Option, Result), `text.dfy` (Python string operations, ASCII),
`json_value.dfy`, `response_cleanup.dfy`, `model_fallback.dfy`, `routing.dfy`, `records.dfy`,
`analysis.dfy`, `session.dfy`.

## Model

| member | source | states |
|---|---|---|
| Text.ContainsIffOccurs | brain.py:152 | the `in` test holds if and only if the substring occurs at some position of the text |
| Text.Lower | brain.py:152 | `lower()` keeps the length and lower-cases each character on its own (ASCII letters only) |
| Text.LowerKeepsOccurrence | brain.py:152 | if `w` occurs in `s`, then `w.lower()` occurs in `s.lower()`, so the block marker is found whatever its casing |
| Text.Take | brain.py:163 | `s[:n]` is a prefix of `s` of length `min(len(s), n)` |
| Text.TrimLeft | brain.py:76 | the leading half of `strip()`: what it removes is a prefix made only of white space, and what remains is a suffix that is empty or starts with a non-space |
| Text.TrimRight | brain.py:76 | the trailing half of `strip()`: what it removes is a suffix made only of white space, and what remains is a prefix that is empty or ends with a non-space |
| Text.Trim | brain.py:76 | `strip()` leaves no white space at either end, and gives the empty string exactly when the text is all white space |
| Text.TrimmedOccurrenceIsOriginal | brain.py:76 | anything found in the stripped text was already in the text |
| Text.TrimUnwraps | brain.py:76 | `strip()` of `ws + core + ws'` is `core` whenever `core` has no white space at its ends, so stripping only ever removes white space at the ends |
| Text.TrimIdempotent | brain.py:76 | stripping twice is stripping once |
| JsonValue.Get | brain.py:173-181 | `dict.get(key, default)` gives the stored value, `null` included, when the key is present, and the default otherwise |
| ResponseCleanup.StripFences | brain.py:76 | the fence-removal pass never lengthens the text |
| ResponseCleanup.StripFencesDeletesJsonMarker | brain.py:76 | the pass deletes a ```` ```json ```` marker and keeps the backtick-free text before it unchanged; the text after it is processed the same way |
| ResponseCleanup.StripFencesDeletesBareMarker | brain.py:76 | the pass deletes a ```` ``` ```` marker that `json` does not follow (one that `json` follows is the longer marker) and keeps the backtick-free text before it unchanged; the text after it is processed the same way |
| ResponseCleanup.StripFencesPlainPrefix | brain.py:76 | a prefix without backticks passes through the pass unchanged |
| ResponseCleanup.StripFencesKeepsNonMarkerHead | brain.py:76 | a character that does not start ```` ``` ```` is kept, a lone backtick included, so the pass deletes the markers and nothing else |
| ResponseCleanup.StrayTickSurvives | brain.py:76 | a stray backtick before a marker survives: ```` `a```b ```` becomes ```` `ab ```` |
| ResponseCleanup.StripFencesLeavesNoFence | brain.py:76 | after the single `re.sub` pass no ```` ``` ```` remains anywhere in the text |
| ResponseCleanup.StripFencesFixesExactlyFenceFree | brain.py:76 | the pass leaves a text unchanged if and only if it contains no ```` ``` ```` |
| ResponseCleanup.StripFencesIdempotent | brain.py:76 | removing fences a second time changes nothing |
| ResponseCleanup.Clean | brain.py:76 | the cleaned text contains no ```` ``` ````, has no white space at either end, and is no longer than the reply |
| ResponseCleanup.CleanIdempotent | brain.py:75-78 | cleaning is idempotent, and parsing the cleaned text equals parsing the raw reply for every decoder |
| ResponseCleanup.FencedReplyParsesLikeBare | brain.py:75-78 | a reply wrapped in ```` ```json ````…```` ``` ```` cleans and parses exactly like the bare reply when the reply has no backtick |
| ResponseCleanup.FirstIndexOf | brain.py:81 | the index found holds `c`, and no earlier position does (the length when there is none) |
| ResponseCleanup.LastIndexOf | brain.py:81 | the index found holds `c`, and no later position does (-1 when there is none) |
| ResponseCleanup.BraceSpan | brain.py:81-82 | the fallback candidate exists if and only if some `}` follows some `{`, and it starts with `{` and ends with `}` |
| ResponseCleanup.BraceSpanIsGreedy | brain.py:81 | the candidate starts at the first `{`, and no `}` follows it in the text |
| ResponseCleanup.GreedySpanIsFound | brain.py:81 | conversely, any piece running from the first `{` to the last `}` is the candidate found |
| ResponseCleanup.ParseResponse | brain.py:75-85 | a successful decode of the cleaned text is the result; if it fails and a brace span exists whose decode succeeds, that value is the result; if it fails and there is no span or the span does not decode, the result is `{}` |
| ModelFallback.RateLimited | brain.py:96 | an outcome moves on to the next model if and only if it is an error whose message contains `429` somewhere |
| ModelFallback.TryInOrder | brain.py:90-98 | at most one attempt per model; every attempt before the last was a 429 error; the outcome is the last model's reply or error, returned or re-raised unless it was a 429 error; if all are 429 errors, all models are asked and the overload error is raised |
| ModelFallback.GenerateWithFallback | brain.py:87-98 | one or two model calls, never more |
| ModelFallback.FallbackCases | brain.py:90-98 | flash is asked first and its reply or non-429 error is the outcome; pro is asked only after a 429 from flash; two 429 errors raise "AI is overloaded" after exactly two attempts |
| ModelFallback.GeneratedIffReplyAfterRateLimits | brain.py:90-96 | a text is returned if and only if some model replied with it and every model before it gave a 429 error |
| Routing.ScreenshotOf | brain.py:147-153 | a screenshot counts exactly when the scrape succeeded and the URL is present and non-empty |
| Routing.ContentOf | brain.py:146 | `getattr(data, 'markdown', '')`: a failed scrape reads as empty content, which counts as blocked; a document gives its Markdown |
| Routing.IsBlocked | brain.py:152 | a page is blocked if and only if it is shorter than 300 characters or `verify` occurs in its lower-cased text |
| Routing.RouteScrape | brain.py:146-163 | direct analysis if and only if not blocked; screenshot path if and only if blocked with a screenshot, using that screenshot; the prompt gets a prefix of the content of length `min(len, 15000)` |
| Routing.FailedScrapeIsStuck | brain.py:105-108 | a failed scrape reads as empty content, is blocked, and has no screenshot, so it fails |
| Routing.MarkerInAnyCaseBlocks | brain.py:152 | content containing any casing of `verify` is blocked whatever its length |
| Routing.CleanPageGoesDirect | brain.py:152-163 | a page of at least 300 characters without the marker is analysed from its first 15000 characters (all of it when shorter) |
| Records.BuildRecord | brain.py:176-182 | each field is the result's value when the key is present, `null` included, and otherwise the default (label, 0, "Analyzed"); the result and image URL are stored unchanged |
| Records.EmptyResultRecord | brain.py:173-182 | an empty result gives the all-defaults record |
| Records.SidebarColour | brain.py:54 | red if and only if `s <= 45`, orange if and only if `45 < s < 80`, green if and only if `s >= 80` |
| Records.ResultColour | brain.py:195 | red if and only if `s < 45`, orange if and only if `45 <= s < 80`, green if and only if `s >= 80` |
| Records.ColoursAreMonotone | brain.py:54 | under either banding the colour never worsens as the score rises |
| Records.BandingsDisagreeOnlyAt45 | brain.py:195 | this banding and the sidebar's (brain.py:54) give the same colour if and only if the score is not 45 |
| Records.ComparableScore | brain.py:53-54 | integer scores and booleans (as 1/0) can be compared with 45 and 80; every other JSON value makes the comparison raise |
| Records.SidebarIndicator | brain.py:53-55 | an entry gets an indicator exactly when its score can be compared, and the indicator is the sidebar colour of that score |
| Records.ButtonsStopAtFirstUncomparable | brain.py:46-55 | the sidebar draws the buttons of every entry up to and including the first whose score cannot be compared, and all of them when every score can be |
| Records.SidebarIndicators | brain.py:46-55 | the listing is drawn in full if and only if every score can be compared, each entry with its own indicator; otherwise drawing stops at the first entry whose score cannot be compared |
| Records.ButtonsDrawn | brain.py:46-55 | the buttons drawn are a prefix of the listing: all of it when every score can be compared, and otherwise up to and including the first entry whose score cannot be |
| Analysis.ReadPicture | brain.py:167-170 | the image branch yields exactly the vision prompt's text, with the label and image URL it was given, and fails with exactly the model's error |
| Analysis.Ask | brain.py:164-170 | each `generate_with_fallback` call of the analysis gives flash's reply or error unless flash is rate limited, then pro's unless pro is too, and then the overload error |
| Analysis.Gather | brain.py:140-170 | an upload is read with label "Analysis" and no image URL; a link without URL or scraping key gathers the empty reply; a blocked page without screenshot fails with "Scraper blocked and no screenshot available."; a blocked page with one reads it, keeping its URL; a readable page gives the model's text on its first 15000 characters, labelled with the URL's first 30 characters and the Open-Graph image, or the model's error |
| Analysis.Analyze | brain.py:139-187 | a gathering failure passes through unchanged; otherwise the record is built from the parsed object with the gathered label and image URL, and a parsed value that is not an object fails with Python's `AttributeError` message |
| Analysis.EmptyLinkRecordsDefaults | brain.py:140-182 | a link run without URL or scraping key records `{}` labelled "Analysis" with score 0 and verdict "Analyzed" |
| Analysis.FailedScrapeFails | brain.py:145-160 | a scrape returning `None` ends the run with "Scraper blocked and no screenshot available." |
| Analysis.BlockedPageWithoutScreenshotFails | brain.py:152-160 | a blocked page without a screenshot ends the run with "Scraper blocked and no screenshot available." |
| Analysis.BlockedPageReadsScreenshot | brain.py:152-170 | a blocked page with a screenshot goes to the vision prompt on that screenshot; the record keeps the screenshot URL and, by default, the label "Analysis" |
| Analysis.ReadablePageIsAnalysedDirectly | brain.py:145-165 | a readable page gives the model's reply, labelled with the URL's first 30 characters, with the Open-Graph image |
| Analysis.ModelFailureEndsRun | brain.py:167-187 | a model failure on the image path ends the run with exactly its message |
| SessionState.Reversed | brain.py:46 | `reversed` puts entry `k` of the listing at position `len - 1 - k` of the history |
| SessionState.NewestScanListedFirst | brain.py:46 | after an append the new record heads the sidebar, followed by the previous listing |
| SessionState.ClearUrlInput | brain.py:26-28 | the Reset callback empties the URL box and ends playback, and leaves the history and the upload alone |
| SessionState.ClearImageInput | brain.py:30-32 | the Reset Image callback removes the upload and ends playback, and leaves the history and the URL box alone |
| SessionState.LoadHistoryItem | brain.py:34-35 | picking an entry plays it back and changes nothing else |
| SessionState.ClosePlayback | brain.py:37-38 | Back ends playback and changes nothing else |
| SessionState.ClearHistory | brain.py:58-60 | Clear History empties the history and ends playback, and leaves the inputs alone |
| SessionState.TriggerOf | brain.py:111-127 | a set playback forces the playback trigger; otherwise a trigger exists exactly for the link button, or for the screenshot button with a file uploaded, and the image trigger carries that upload |
| SessionState.Display | brain.py:189-196 | the result view is shown, with the result colour of its score, exactly when the score can be compared; otherwise the comparison raises |
| SessionState.Perform | brain.py:129-196 | without a model key the empty view is shown with score 0 in red and nothing changes; a failed analysis shows exactly its error and changes nothing; a completed one appends its record and displays it |
| SessionState.DrawSidebar | brain.py:46-55 | drawing the sidebar binds its buttons to the entries it draws, newest first, and changes nothing else |
| SessionState.SidebarStopsAtNewestUncomparable | brain.py:46-54 | the sidebar lists the history newest first, so it stops at the newest history entry whose score cannot be compared, and stops at all if and only if there is one |
| SessionState.SidebarBreaks | brain.py:46-54 | the sidebar raises if and only if some entry of the history has a score that cannot be compared with 45 |
| SessionState.SidebarError | brain.py:54 | the `TypeError` is that of `s <= 45` on the score of the newest history entry whose score cannot be compared |
| SessionState.Run | brain.py:41-196 | the buttons drawn are those of the history before the rerun; a sidebar that cannot be drawn ends the rerun with its `TypeError` and changes nothing else; otherwise a rerun never touches playback or the inputs, the history stays or gains one record, and a failed run changes nothing but the buttons |
| SessionState.Step | brain.py:26-61 | only a rerun or Clear History changes the history, and Clear History only by emptying it; only they change the buttons drawn; only editing or resetting the URL box changes it; only picking or resetting an upload changes it |
| SessionState.PlaybackForcesReplay | brain.py:125-136 | while a record is played back every rerun that draws the sidebar shows it and changes nothing but the buttons, whatever button and keys; a sidebar that cannot be drawn raises first; a listed playback record is always shown |
| SessionState.MissingKeyShowsEmptyView | brain.py:129-137 | without a model key a triggered run shows `{}` with score 0 and records nothing, unless the sidebar raises first |
| SessionState.RunAppendsExactlyOnCompletion | brain.py:172-187 | a rerun appends a record if and only if the sidebar is drawn and it is a non-playback run with a model key whose analysis completes; the record appended is that analysis' record and is what is displayed; otherwise only the buttons are redrawn |
| SessionState.UncomparableScoreBreaksSession | brain.py:173-196 | a record whose score cannot be compared makes its own run's display raise, and from then on breaks the sidebar at its first entry |
| SessionState.SidebarBreakIsPermanent | brain.py:46-61 | once the sidebar cannot be drawn no event changes the history, Clear History included, so it stays broken |
| SessionState.StepAppendsOnly | brain.py:58-60 | Clear History empties the history and the playback together when the sidebar is drawn, and otherwise only redraws the sidebar; every other event only appends, at most one record |
| SessionState.PlaybackTransitions | brain.py:26-38 | back and both resets clear playback and keep the history; each reset clears only its own input; a click on a sidebar button plays back the record bound to that button when it was drawn |
| SessionState.ButtonsBoundBeforeAppend | brain.py:46-50 | the buttons are bound before the append of brain.py:176: right after a rerun that drew the whole sidebar, button `k` can be clicked and is bound to the `k`-th newest record from before the rerun; after an append that is the record `k + 2` places from the end, not `k + 1` |
| SessionState.StepKeepsPlaybackListed | brain.py:26-60 | every event keeps the playback record, when there is one, and the record of every drawn button among the history entries |
| SessionState.ReachableKeepsPlaybackListed | brain.py:19-60 | from the initial empty session, after any sequence of events, the playback record and every button's record are entries of the history |

## Left out

- Rendering, layout, tabs, buttons, status widgets, `st.rerun` and `st.stop` are left out. The
  buttons are modelled as `Press` and `Event` values, and the screen as `Screen`.
- `get_api_keys` (brain.py:68-73) is left out: secrets and environment lookup are configuration
  I/O. Only whether each key is present is modelled.
- The Firecrawl client, its options and the one-hour `st.cache_data` cache (brain.py:100-108)
  are left out: these are an external service and framework caching. The scraper is a
  function from URL to an optional document.
- The duck-typed metadata adapter (brain.py:148-149) is left out, because it depends on the
  unseen Firecrawl result type. Its Open-Graph image is part of the scraped document as given.
- A document whose `markdown` attribute exists but is `None` is left out. It would make
  `len()` raise; the model assumes the attribute is a string or missing.
- The screenshot download and its decoding (brain.py:155-156) are network and binary I/O and
  are assumed to succeed. They run inside the `try`, so a failure there would end the run
  with its message like the modelled errors.
- Decoding the upload (brain.py:122) is binary I/O and is assumed to succeed. It runs before
  the `try`, so a failure there would be an uncaught error, which the model does not cover.
- The Gemini client and the JSON grammar are abstract parameters. JSON numbers are integers
  only, because fractional scores would need floating point.
- Prompt wording is left out: a prompt is identified by what it embeds.
- Text.Lower: does not model Unicode `lower()`, because only ASCII letters are case-folded.
- Text.Trim: does not model Unicode `strip()`, because only the white space Python
  recognises below code point 128 is removed.
- A click on a sidebar button is limited to the buttons the last rerun drew (`Allowed`). A
  click on a button with a callback is modelled as the callback alone, followed by a
  separate `Rerun`; Clear History, which has no callback, includes its own reruns. `Allowed`
  does not restrict the other buttons: Back is drawn only during playback (brain.py:127),
  the two resets only outside it (brain.py:118, 124), and none of the three when the
  sidebar raises. The model therefore admits clicks the page does not offer; the
  invariants proved over every event sequence hold a fortiori for the sequences the page
  allows.
- Streamlit's clean-up of widget state for widgets that are not drawn during playback is left
  out: it is framework behaviour.
- Iterating `red_flags` and `key_complaints` (brain.py:198, 202) is left out as rendering,
  including the error a value that is not iterable would raise there.
- Error messages other than the ones raised by brain.py itself follow CPython's wording:
  `'list' object has no attribute 'get'` and
  `'<=' not supported between instances of 'str' and 'int'`.

=== FILE: analysis.dfy ===
/** One analysis run, brain.py:139-182: gather a raw model reply along the link
    path or the image path, parse it, and build the history record. Any exception
    on the way (the scraper blocked without a screenshot, a model error that is
    not a rate limit, every model rate limited, a parsed value that is not an
    object) ends the run with that message and no record.

    The collaborators are parameters: the scraper, the language model (one call
    per prompt and model name) and the JSON decoder. */
module Analysis {
  import opened Basics
  import opened Text
  import opened JsonValue
  import opened ResponseCleanup
  import opened ModelFallback
  import opened Routing
  import opened Records

  /** An image handed to the model: the user's upload, or the page screenshot
      downloaded from its URL (brain.py:155-156). */
  datatype Picture = Uploaded(file: string) | Fetched(url: string)

  /** The two prompts of the script, by what they embed: the page text
      (brain.py:163) or an image (brain.py:169-170). */
  datatype Prompt = SpecsPrompt(evidence: string) | VisionPrompt(picture: Picture)

  /** The external services. `scrape(url)` is `scrape_website(url, key)`;
      `generate(p, model)` is one `generate_content` call; `decode(t)` is
      `json.loads(t, strict=False)`, `None` when it raises. */
  datatype Collaborators = Collaborators(
    scrape: string -> Option<ScrapeDoc>,
    generate: (Prompt, string) -> Reply,
    decode: string -> Option<Json>)

  /** What the user asked for: the link in the URL box, or an uploaded screenshot. */
  datatype Request = LinkRequest(url: string) | ScreenshotRequest(picture: Picture)

  /** Only this many characters of the URL label the record (brain.py:165). */
  const LabelLimit: nat := 30

  /** brain.py:160. */
  const BlockedMessage: string := "Scraper blocked and no screenshot available."

  /** The message of the `AttributeError` that `result.get` raises (brain.py:173) when
      the parsed value `j` is not a dictionary. */
  function AttributeMessage(j: Json): string
  {
    "'" + TypeName(j) + "' object has no attribute 'get'"
  }

  /** What the gathering phase leaves behind: `raw_text_response`, `source_lbl`, `img_url`. */
  datatype Gathered = Gathered(raw: string, pageLabel: string, imageUrl: Option<string>)

  /** `generate_with_fallback(prompt, ...)` for one prompt: flash's reply or error unless
      it is rate limited, then pro's unless that is rate limited too, then the overload error. */
  function Ask(c: Collaborators, p: Prompt): (r: Reply)
    ensures !RateLimited(c.generate(p, "gemini-1.5-flash")) ==> r == c.generate(p, "gemini-1.5-flash")
    ensures (RateLimited(c.generate(p, "gemini-1.5-flash")) && !RateLimited(c.generate(p, "gemini-1.5-pro")))
              ==> r == c.generate(p, "gemini-1.5-pro")
    ensures (RateLimited(c.generate(p, "gemini-1.5-flash")) && RateLimited(c.generate(p, "gemini-1.5-pro")))
              ==> r == Err(OverloadedMessage)
  {
    FallbackCases(model => c.generate(p, model));
    GenerateWithFallback(model => c.generate(p, model)).outcome
  }

  /** The image branch of brain.py:167-170. */
  function ReadPicture(c: Collaborators, p: Picture, pageLabel: string, imageUrl: Option<string>): (r: Result<Gathered>)
    ensures r.Ok? <==> Ask(c, VisionPrompt(p)).Ok?
    ensures r.Ok? ==> r.value == Gathered(Ask(c, VisionPrompt(p)).value, pageLabel, imageUrl)
    ensures r.Err? ==> r.message == Ask(c, VisionPrompt(p)).message
  {
    match Ask(c, VisionPrompt(p))
    case Ok(t) => Ok(Gathered(t, pageLabel, imageUrl))
    case Err(m) => Err(m)
  }

  /** brain.py:140-170: gather the raw reply. A link without URL or without a
      scraping key skips straight to parsing an empty reply. Otherwise the page is
      scraped and routed: analysed directly (label: first 30 characters of the
      URL, image: the page's Open-Graph image), read from its screenshot (label
      "Analysis", image: the screenshot), or failed. An upload is read directly. */
  function Gather(req: Request, scrapingKey: bool, c: Collaborators): (r: Result<Gathered>)
    ensures r.Ok? ==>
              (r.value.pageLabel == DefaultLabel
               || (req.LinkRequest? && r.value.pageLabel == Take(req.url, LabelLimit)))
    ensures req.ScreenshotRequest? ==> r == ReadPicture(c, req.picture, DefaultLabel, None)
    ensures req.LinkRequest? && (req.url == "" || !scrapingKey) ==> r == Ok(Gathered("", DefaultLabel, None))
    ensures req.LinkRequest? && req.url != "" && scrapingKey ==>
              var d := c.scrape(req.url);
              var answer := Ask(c, SpecsPrompt(Take(ContentOf(d), EvidenceLimit)));
              && (IsBlocked(ContentOf(d)) && ScreenshotOf(d).None? ==> r == Err(BlockedMessage))
              && (IsBlocked(ContentOf(d)) && ScreenshotOf(d).Some? ==>
                    r == ReadPicture(c, Fetched(ScreenshotOf(d).value), DefaultLabel, ScreenshotOf(d)))
              && (!IsBlocked(ContentOf(d)) && answer.Ok? ==>
                    r == Ok(Gathered(answer.value, Take(req.url, LabelLimit), MetaImageOf(d))))
              && (!IsBlocked(ContentOf(d)) && answer.Err? ==> r == Err(answer.message))
  {
    match req
    case ScreenshotRequest(p) => ReadPicture(c, p, DefaultLabel, None)
    case LinkRequest(url) =>
      if url == "" || !scrapingKey then Ok(Gathered("", DefaultLabel, None))
      else
        var d := c.scrape(url);
        match RouteScrape(d)
        case Stuck => Err(BlockedMessage)
        case Vision(shot) => ReadPicture(c, Fetched(shot), DefaultLabel, Some(shot))
        case Direct(evidence) =>
          match Ask(c, SpecsPrompt(evidence))
          case Ok(t) => Ok(Gathered(t, Take(url, LabelLimit), MetaImageOf(d)))
          case Err(m) => Err(m)
  }

  /** brain.py:139-182 without the UI: gather, parse, build the record. A record
      comes out exactly when gathering succeeded and the reply parsed to an
      object; it is built from that object with the gathered label and image. A
      failure while gathering is passed on unchanged, and a parsed value that is
      not an object fails with the `AttributeError` of `result.get`. */
  function Analyze(req: Request, scrapingKey: bool, c: Collaborators): (r: Result<Record>)
    ensures Gather(req, scrapingKey, c).Err? ==> r == Err(Gather(req, scrapingKey, c).message)
    ensures r.Ok? <==> Gather(req, scrapingKey, c).Ok?
                       && ParseResponse(c.decode, Gather(req, scrapingKey, c).value.raw).Object?
    ensures Gather(req, scrapingKey, c).Ok? ==>
              var g := Gather(req, scrapingKey, c).value;
              var parsed := ParseResponse(c.decode, g.raw);
              && (parsed.Object? ==> r == Ok(BuildRecord(parsed.fields, g.pageLabel, g.imageUrl)))
              && (!parsed.Object? ==> r == Err(AttributeMessage(parsed)))
  {
    match Gather(req, scrapingKey, c)
    case Err(m) => Err(m)
    case Ok(g) =>
      match ParseResponse(c.decode, g.raw)
      case Object(fields) => Ok(BuildRecord(fields, g.pageLabel, g.imageUrl))
      case other => Err(AttributeMessage(other))
  }

  /** A link analysis without a URL or without a scraping key asks no model and
      records an empty result labelled "Analysis" with score 0 (the decoder rejects
      the empty text, as `json.loads("")` does). */
  lemma EmptyLinkRecordsDefaults(url: string, scrapingKey: bool, c: Collaborators)
    requires url == "" || !scrapingKey
    requires c.decode("") == None
    ensures Analyze(LinkRequest(url), scrapingKey, c)
         == Ok(Record(Str(DefaultLabel), Num(0), Str(DefaultVerdict), map[], None))
  {
  }

  /** A scrape that failed (`None`) reads as empty content: blocked, without a
      screenshot, so the run raises and records nothing. */
  lemma FailedScrapeFails(url: string, c: Collaborators)
    requires url != ""
    requires c.scrape(url) == None
    ensures Analyze(LinkRequest(url), true, c) == Err(BlockedMessage)
  {
  }

  /** A scraped page that is blocked and has no usable screenshot ends the run with
      the blocked message, whatever the model would answer. */
  lemma BlockedPageWithoutScreenshotFails(url: string, c: Collaborators)
    requires url != ""
    requires IsBlocked(ContentOf(c.scrape(url)))
    requires ScreenshotOf(c.scrape(url)).None?
    ensures Analyze(LinkRequest(url), true, c) == Err(BlockedMessage)
  {
  }

  /** A blocked page with a screenshot is read from the screenshot: the vision prompt
      gets the downloaded screenshot, the record keeps the screenshot URL and, unless the
      result names the product, the label "Analysis". */
  lemma BlockedPageReadsScreenshot(url: string, c: Collaborators, shot: string)
    requires url != ""
    requires IsBlocked(ContentOf(c.scrape(url)))
    requires ScreenshotOf(c.scrape(url)) == Some(shot)
    ensures Gather(LinkRequest(url), true, c) == ReadPicture(c, Fetched(shot), DefaultLabel, Some(shot))
    ensures Analyze(LinkRequest(url), true, c).Ok? ==>
              Analyze(LinkRequest(url), true, c).value.imageUrl == Some(shot)
              && ("product_name" !in Analyze(LinkRequest(url), true, c).value.result ==>
                    Analyze(LinkRequest(url), true, c).value.source == Str(DefaultLabel))
  {
  }

  /** A readable page is analysed from its first 15000 characters; the record is
      labelled with the first 30 characters of the URL unless the result names the
      product, and carries the page's Open-Graph image. */
  lemma ReadablePageIsAnalysedDirectly(url: string, c: Collaborators, reply: string)
    requires url != ""
    requires !IsBlocked(ContentOf(c.scrape(url)))
    requires Ask(c, SpecsPrompt(Take(ContentOf(c.scrape(url)), EvidenceLimit))) == Ok(reply)
    ensures Gather(LinkRequest(url), true, c)
         == Ok(Gathered(reply, Take(url, LabelLimit), MetaImageOf(c.scrape(url))))
    ensures Analyze(LinkRequest(url), true, c).Ok? ==>
              ("product_name" !in Analyze(LinkRequest(url), true, c).value.result ==>
                 Analyze(LinkRequest(url), true, c).value.source == Str(Take(url, LabelLimit)))
  {
  }

  /** An error from the model that is not a rate limit, or the overload error, ends the
      run with exactly that message. */
  lemma ModelFailureEndsRun(req: Request, c: Collaborators, m: string)
    requires req.ScreenshotRequest?
    requires Ask(c, VisionPrompt(req.picture)) == Err(m)
    ensures Analyze(req, true, c) == Err(m) && Analyze(req, false, c) == Err(m)
  {
  }
}

=== FILE: basics.dfy ===
/** Small failure-carrying datatypes shared by the whole model. */
module Basics {

  /** Python's `None` or a present value. */
  datatype Option<+T> = None | Some(value: T)

  /** The outcome of a step that may raise: `Err` carries the exception's message. */
  datatype Result<+T> = Ok(value: T) | Err(message: string)
}

=== FILE: json_value.dfy ===
/** The values a JSON decoder hands back, as Python sees them after `json.loads`.
    Only the value shapes are modelled; the JSON grammar itself is an abstract
    decoder supplied by the caller (see `ResponseCleanup.ParseResponse`). */
module JsonValue {

  /** `null`, `true`/`false`, an integer, a string, an array or an object.
      Fractional numbers are not modelled. */
  datatype Json =
    | Null
    | Bool(b: bool)
    | Num(n: int)
    | Str(s: string)
    | Array(items: seq<Json>)
    | Object(fields: map<string, Json>)

  /** The empty object `{}`. */
  const EmptyObject: Json := Object(map[])

  /** Python's `d.get(key, default)`: the stored value when the key is present
      (even when that value is `null`), the default otherwise. */
  function Get(d: map<string, Json>, key: string, default: Json): (r: Json)
    ensures key in d ==> r == d[key]
    ensures key !in d ==> r == default
  {
    if key in d then d[key] else default
  }

  /** The name Python gives the type of a decoded value, as it appears in exception messages. */
  function TypeName(j: Json): string
  {
    match j
    case Null => "NoneType"
    case Bool(_) => "bool"
    case Num(_) => "int"
    case Str(_) => "str"
    case Array(_) => "list"
    case Object(_) => "dict"
  }
}

=== FILE: model_fallback.dfy ===
/** `generate_with_fallback` (brain.py:87-98): ask each model of a fixed list in
    turn; the first reply wins, an error whose message mentions `429` moves on to
    the next model, any other error is re-raised at once, and running out of
    models raises "AI is overloaded".

    The language-model client is a parameter: `call(model)` is what
    `generate_content` does for that model with the prompt (and image) already
    bound — a reply text or the message of the exception it raised. */
module ModelFallback {
  import opened Basics
  import opened Text

  /** One `generate_content` call (`Ok` with the reply's text, `Err` with the raised
      exception's message), and likewise what `generate_with_fallback` returns or raises. */
  type Reply = Result<string>

  /** The outcome together with how many models were asked. */
  datatype Attempt = Attempt(outcome: Reply, attempts: nat)

  /** The models tried, in order (brain.py:90). */
  const Models: seq<string> := ["gemini-1.5-flash", "gemini-1.5-pro"]

  /** The exception raised when every model was rate limited (brain.py:98). */
  const OverloadedMessage: string := "AI is overloaded. Try again in 10s."

  /** `"429" in str(e)`: the call raised, and its message has `429` at some offset
      ("rate limited, try the next model"). A reply is never a rate limit. */
  function RateLimited(c: Reply): (r: bool)
    ensures r <==> c.Err? && exists i :: OccursAt(c.message, "429", i)
  {
    if c.Err? then
      ContainsIffOccurs(c.message, "429");
      Contains(c.message, "429")
    else false
  }

  /** Every model of the list answered with a rate-limit error. */
  ghost predicate AllRateLimited(models: seq<string>, call: string -> Reply)
  {
    forall k :: 0 <= k < |models| ==> RateLimited(call(models[k]))
  }

  /** The `for` loop of brain.py:90-98 as a fold over the model list.
      Only rate-limited calls come before the last one asked; stopping before the
      end of the list happens only at a decisive call, whose reply is returned or
      whose error is re-raised; if every model is rate limited, all are asked and
      the overload error is raised. */
  function TryInOrder(models: seq<string>, call: string -> Reply): (r: Attempt)
    ensures r.attempts <= |models|
    ensures forall k :: 0 <= k < r.attempts - 1 ==> RateLimited(call(models[k]))
    ensures r.attempts < |models| ==> 0 < r.attempts && !RateLimited(call(models[r.attempts - 1]))
    ensures (0 < r.attempts && !RateLimited(call(models[r.attempts - 1])))
              ==> r.outcome == call(models[r.attempts - 1])
    ensures AllRateLimited(models, call) ==> r == Attempt(Err(OverloadedMessage), |models|)
    decreases |models|
  {
    if models == [] then Attempt(Err(OverloadedMessage), 0)
    else
      var first := call(models[0]);
      if RateLimited(first) then
        var rest := TryInOrder(models[1..], call);
        Attempt(rest.outcome, rest.attempts + 1)
      else
        Attempt(first, 1)
  }

  /** `generate_with_fallback` over its fixed two-model list. */
  function GenerateWithFallback(call: string -> Reply): (r: Attempt)
    ensures 1 <= r.attempts <= 2
  {
    TryInOrder(Models, call)
  }

  /** The outcomes of `generate_with_fallback`, case by case: flash first; pro only after a
      rate-limited flash; a non-429 error from flash is re-raised without asking pro;
      two rate limits raise the overload error. */
  lemma FallbackCases(call: string -> Reply)
    ensures !RateLimited(call("gemini-1.5-flash")) ==>
              GenerateWithFallback(call) == Attempt(call("gemini-1.5-flash"), 1)
    ensures (RateLimited(call("gemini-1.5-flash")) && !RateLimited(call("gemini-1.5-pro")))
              ==> GenerateWithFallback(call) == Attempt(call("gemini-1.5-pro"), 2)
    ensures (RateLimited(call("gemini-1.5-flash")) && RateLimited(call("gemini-1.5-pro")))
              ==> GenerateWithFallback(call) == Attempt(Err(OverloadedMessage), 2)
  {
  }

  /** Model `n` replied with `t`, and every model before it was rate limited. */
  ghost predicate RepliedAfterRateLimits(models: seq<string>, call: string -> Reply, t: string, n: int)
  {
    && 0 <= n < |models|
    && call(models[n]) == Ok(t)
    && forall k :: 0 <= k < n ==> RateLimited(call(models[k]))
  }

  /** Behind a rate-limited first model, the witnesses shift by one position. */
  lemma ShiftPastRateLimit(models: seq<string>, call: string -> Reply, t: string, n: int)
    requires 1 <= |models| && RateLimited(call(models[0]))
    ensures RepliedAfterRateLimits(models, call, t, n + 1) <==> RepliedAfterRateLimits(models[1..], call, t, n)
  {
  }

  /** A text is returned exactly when some model replied with it and every model asked before it was rate limited. */
  lemma {:induction false} GeneratedIffReplyAfterRateLimits(models: seq<string>, call: string -> Reply, t: string)
    ensures TryInOrder(models, call).outcome == Ok(t)
        <==> exists n :: RepliedAfterRateLimits(models, call, t, n)
    decreases |models|
  {
    if models != [] {
      var r := TryInOrder(models, call);
      if RateLimited(call(models[0])) {
        GeneratedIffReplyAfterRateLimits(models[1..], call, t);
        assert r.outcome == TryInOrder(models[1..], call).outcome;
        if r.outcome == Ok(t) {
          var n :| RepliedAfterRateLimits(models[1..], call, t, n);
          ShiftPastRateLimit(models, call, t, n);
        }
        if exists n :: RepliedAfterRateLimits(models, call, t, n) {
          var n :| RepliedAfterRateLimits(models, call, t, n);
          assert n != 0;
          ShiftPastRateLimit(models, call, t, n - 1);
        }
      } else {
        assert r.outcome == call(models[0]);
        if r.outcome == Ok(t) {
          assert RepliedAfterRateLimits(models, call, t, 0);
        }
        if exists n :: RepliedAfterRateLimits(models, call, t, n) {
          var n :| RepliedAfterRateLimits(models, call, t, n);
          assert n == 0;
        }
      }
    }
  }
}

=== FILE: records.dfy ===
/** History records (brain.py:172-182) and the two score colour bandings
    (brain.py:54 for the sidebar, brain.py:195 for the result view). */
module Records {
  import opened Basics
  import opened JsonValue

  /** One history entry: the dictionary appended at brain.py:176-182. `source`,
      `score` and `verdict` hold whatever JSON value the parsed result carried. */
  datatype Record = Record(
    source: Json,
    score: Json,
    verdict: Json,
    result: map<string, Json>,
    imageUrl: Option<string>)

  /** The label used when the result names no product and no page label was set. */
  const DefaultLabel: string := "Analysis"

  /** The verdict used when the result carries none. */
  const DefaultVerdict: string := "Analyzed"

  /** The record built from a parsed result object: each field taken from the
      result when present (whatever its value, `null` included) and defaulted
      otherwise; the result and image URL stored unchanged. */
  function BuildRecord(result: map<string, Json>, pageLabel: string, imageUrl: Option<string>): (r: Record)
    ensures r.result == result && r.imageUrl == imageUrl
    ensures "product_name" in result ==> r.source == result["product_name"]
    ensures "product_name" !in result ==> r.source == Str(pageLabel)
    ensures "score" in result ==> r.score == result["score"]
    ensures "score" !in result ==> r.score == Num(0)
    ensures "verdict" in result ==> r.verdict == result["verdict"]
    ensures "verdict" !in result ==> r.verdict == Str(DefaultVerdict)
  {
    Record(
      Get(result, "product_name", Str(pageLabel)),
      Get(result, "score", Num(0)),
      Get(result, "verdict", Str(DefaultVerdict)),
      result,
      imageUrl)
  }

  /** A record built from a result that names nothing is the all-defaults record. */
  lemma EmptyResultRecord(pageLabel: string, imageUrl: Option<string>)
    ensures BuildRecord(map[], pageLabel, imageUrl)
         == Record(Str(pageLabel), Num(0), Str(DefaultVerdict), map[], imageUrl)
  {
  }

  /** The three colours a score is shown in. */
  datatype Colour = Red | Orange | Green

  /** Colours ordered from worst to best. */
  function Rank(c: Colour): nat
  {
    match c
    case Red => 0
    case Orange => 1
    case Green => 2
  }

  /** brain.py:54, the sidebar indicator: red up to 45, orange below 80, green from 80. */
  function SidebarColour(s: int): (c: Colour)
    ensures c == Red <==> s <= 45
    ensures c == Orange <==> 45 < s < 80
    ensures c == Green <==> s >= 80
  {
    if s <= 45 then Red else if s < 80 then Orange else Green
  }

  /** brain.py:195, the result view: red below 45, orange below 80, green from 80. */
  function ResultColour(s: int): (c: Colour)
    ensures c == Red <==> s < 45
    ensures c == Orange <==> 45 <= s < 80
    ensures c == Green <==> s >= 80
  {
    if s < 45 then Red else if s < 80 then Orange else Green
  }

  /** A higher score never gets a worse colour, in either banding. */
  lemma ColoursAreMonotone(s: int, t: int)
    requires s <= t
    ensures Rank(SidebarColour(s)) <= Rank(SidebarColour(t))
    ensures Rank(ResultColour(s)) <= Rank(ResultColour(t))
  {
  }

  /** The two bandings disagree on exactly one score, 45: red in the sidebar, orange in the result view. */
  lemma BandingsDisagreeOnlyAt45(s: int)
    ensures SidebarColour(s) == ResultColour(s) <==> s != 45
    ensures SidebarColour(45) == Red && ResultColour(45) == Orange
  {
  }

  /** How Python compares a stored score with an integer: integers as they are,
      `true`/`false` as 1/0; for any other value the comparison raises (`None`). */
  function ComparableScore(j: Json): (r: Option<int>)
    ensures j.Num? ==> r == Some(j.n)
    ensures j.Bool? ==> r == Some(if j.b then 1 else 0)
    ensures r.Some? <==> j.Num? || j.Bool?
  {
    match j
    case Num(n) => Some(n)
    case Bool(b) => Some(if b then 1 else 0)
    case _ => None
  }

  /** The message of the `TypeError` raised by comparing the score `j` with an integer
      using `op`, as in `'<=' not supported between instances of 'str' and 'int'`. */
  function CompareMessage(op: string, j: Json): string
  {
    "'" + op + "' not supported between instances of '" + TypeName(j) + "' and 'int'"
  }

  /** The sidebar indicator of one record (brain.py:53-54): its colour, or `None` when
      comparing its score with 45 raises. */
  function SidebarIndicator(r: Record): (c: Option<Colour>)
    ensures c.Some? <==> ComparableScore(r.score).Some?
    ensures c.Some? ==> c.value == SidebarColour(ComparableScore(r.score).value)
  {
    match ComparableScore(r.score)
    case Some(s) => Some(SidebarColour(s))
    case None => None
  }

  /** Entry `k` is the first entry of `listing` whose indicator cannot be computed. */
  ghost predicate FirstUncomparable(listing: seq<Record>, k: int)
  {
    && 0 <= k < |listing|
    && SidebarIndicator(listing[k]).None?
    && forall m :: 0 <= m < k ==> SidebarIndicator(listing[m]).Some?
  }

  /** What the loop of brain.py:46-55 leaves on the sidebar: an indicator for every
      listed record, or the position of the record whose comparison raised. */
  datatype Indicators = Listed(colours: seq<Colour>) | BrokenAt(index: nat)

  /** The loop of brain.py:46-55 over the listed records: every indicator in order,
      or it stops at the first record whose score cannot be compared with 45. */
  function SidebarIndicators(listing: seq<Record>): (r: Indicators)
    ensures r.Listed? <==> forall k :: 0 <= k < |listing| ==> SidebarIndicator(listing[k]).Some?
    ensures r.Listed? ==> |r.colours| == |listing|
                          && forall k :: 0 <= k < |listing| ==> SidebarIndicator(listing[k]) == Some(r.colours[k])
    ensures r.BrokenAt? ==> FirstUncomparable(listing, r.index)
    decreases |listing|
  {
    if listing == [] then Listed([])
    else
      match SidebarIndicator(listing[0])
      case None => BrokenAt(0)
      case Some(c) =>
        match SidebarIndicators(listing[1..])
        case BrokenAt(k) =>
          assert FirstUncomparable(listing, k + 1);
          BrokenAt(k + 1)
        case Listed(cs) => Listed([c] + cs)
  }

  /** The records whose buttons the loop of brain.py:46-55 draws, newest first. The
      button of an entry (brain.py:50) is drawn before its score is compared
      (brain.py:54), so the loop draws every entry up to and including the first one
      whose score cannot be compared. */
  function ButtonsDrawn(listing: seq<Record>): (d: seq<Record>)
    ensures |d| <= |listing| && d == listing[..|d|]
    ensures SidebarIndicators(listing).Listed? ==> d == listing
    ensures SidebarIndicators(listing).BrokenAt? ==> |d| == SidebarIndicators(listing).index + 1
  {
    match SidebarIndicators(listing)
    case Listed(_) => listing
    case BrokenAt(k) => listing[..k + 1]
  }

  /** The buttons drawn are the shortest piece of the listing that ends with the first
      entry whose score cannot be compared: every entry before the last drawn one has an
      indicator, and the loop stops early only at an entry without one. */
  lemma ButtonsStopAtFirstUncomparable(listing: seq<Record>)
    ensures var d := ButtonsDrawn(listing);
            && (forall m :: 0 <= m < |d| - 1 ==> SidebarIndicator(d[m]).Some?)
            && (|d| < |listing| ==> 0 < |d| && SidebarIndicator(d[|d| - 1]).None?)
            && ((forall k :: 0 <= k < |listing| ==> SidebarIndicator(listing[k]).Some?) ==> d == listing)
  {
  }
}

=== FILE: response_cleanup.dfy ===
/** `clean_and_parse_json` (brain.py:75-85): strip Markdown code-fence markers,
    trim, decode; on failure decode the greedy `{...}` span; on total failure
    yield the empty object. It never raises.

    The decoder (`json.loads(..., strict=False)`) is a parameter: `decode(t)` is
    `Some(v)` when decoding `t` returns `v` and `None` when it raises. */
module ResponseCleanup {
  import opened Basics
  import opened Text
  import opened JsonValue

  /** The two alternatives of the pattern ```` ```json|``` ````, in the order the regex tries them. */
  const FenceJson: string := "```json"
  const Fence: string := "```"

  /** `re.sub(r'```json|```', '', s)`: one left-to-right pass that deletes
      non-overlapping matches, trying ```` ```json ```` before ```` ``` ```` at each position. */
  function StripFences(s: string): (r: string)
    ensures |r| <= |s|
    decreases |s|
  {
    if s == [] then []
    else if IsPrefix(FenceJson, s) then StripFences(s[|FenceJson|..])
    else if IsPrefix(Fence, s) then StripFences(s[|Fence|..])
    else [s[0]] + StripFences(s[1..])
  }

  /** The text the decoder first sees: fences removed, then `strip()`. It holds no
      ```` ``` ```` anywhere and no white space at either end, and it is no longer than the reply. */
  function Clean(raw: string): (r: string)
    ensures !Contains(r, Fence)
    ensures r == [] || (!IsSpace(r[0]) && !IsSpace(r[|r| - 1]))
    ensures |r| <= |raw|
  {
    var stripped := StripFences(raw);
    assert !Contains(Trim(stripped), Fence) by {
      StripFencesLeavesNoFence(raw);
      TrimmedOccurrenceIsOriginal(stripped, Fence);
    }
    Trim(stripped)
  }

  /** Index of the first `c` in `t`, or `|t|` when there is none. */
  function FirstIndexOf(t: string, c: char): (i: nat)
    ensures i <= |t|
    ensures i < |t| ==> t[i] == c
    ensures forall k :: 0 <= k < i ==> t[k] != c
    decreases |t|
  {
    if t == [] then 0
    else if t[0] == c then 0
    else 1 + FirstIndexOf(t[1..], c)
  }

  /** Index of the last `c` in `t`, or `-1` when there is none. */
  function LastIndexOf(t: string, c: char): (j: int)
    ensures -1 <= j < |t|
    ensures j >= 0 ==> t[j] == c
    ensures forall k :: j < k < |t| ==> t[k] != c
    decreases |t|
  {
    if t == [] then -1
    else if t[|t| - 1] == c then |t| - 1
    else LastIndexOf(t[..|t| - 1], c)
  }

  /** `re.search(r'\{.*\}', t, re.DOTALL)`: the greedy match runs from the first
      `{` to the last `}`. It exists exactly when some `}` follows some `{`,
      and it always starts with `{` and ends with `}`. */
  function BraceSpan(t: string): (r: Option<string>)
    ensures r.Some? <==> exists i, j :: 0 <= i < j < |t| && t[i] == '{' && t[j] == '}'
    ensures r.Some? ==> 2 <= |r.value| && r.value[0] == '{' && r.value[|r.value| - 1] == '}'
  {
    var i := FirstIndexOf(t, '{');
    var j := LastIndexOf(t, '}');
    if i < j then Some(t[i..j + 1]) else None
  }

  /** `s` sits in `t` at offset `k`, runs from a `{` to a `}`, no `{` comes before it
      and no `}` after it: the greedy first-brace-to-last-brace piece of `t`. */
  ghost predicate IsGreedySpan(t: string, k: int, s: string)
  {
    && 0 <= k && k + |s| <= |t|
    && t[k..k + |s|] == s
    && 2 <= |s| && s[0] == '{' && s[|s| - 1] == '}'
    && (forall m :: 0 <= m < k ==> t[m] != '{')
    && (forall m :: k + |s| <= m < |t| ==> t[m] != '}')
  }

  /** What `BraceSpan` finds is the greedy span. */
  lemma BraceSpanIsGreedy(t: string)
    ensures BraceSpan(t).Some? ==> IsGreedySpan(t, FirstIndexOf(t, '{'), BraceSpan(t).value)
  {
  }

  /** The greedy span, whenever one exists, is what `BraceSpan` finds. */
  lemma GreedySpanIsFound(t: string, k: int, s: string)
    requires IsGreedySpan(t, k, s)
    ensures BraceSpan(t) == Some(s)
  {
  }

  /** `clean_and_parse_json(raw)`: the first decode of the cleaned text wins;
      otherwise the decode of its brace span; otherwise `{}`. Every result is one
      of these decodes or the empty object: no input makes it fail. */
  function ParseResponse(decode: string -> Option<Json>, raw: string): (r: Json)
    ensures decode(Clean(raw)).Some? ==> r == decode(Clean(raw)).value
    ensures (decode(Clean(raw)).None? && BraceSpan(Clean(raw)).Some?
             && decode(BraceSpan(Clean(raw)).value).Some?)
              ==> r == decode(BraceSpan(Clean(raw)).value).value
    ensures (decode(Clean(raw)).None?
             && (BraceSpan(Clean(raw)).None? || decode(BraceSpan(Clean(raw)).value).None?))
              ==> r == EmptyObject
  {
    var text := Clean(raw);
    match decode(text)
    case Some(v) => v
    case None =>
      match BraceSpan(text)
      case Some(span) => (match decode(span) case Some(v) => v case None => EmptyObject)
      case None => EmptyObject
  }

  /** Fence markers never survive: the one pass leaves no ```` ``` ```` behind,
      even where deleting a marker brings back ticks from both sides together. */
  lemma {:induction false} StripFencesLeavesNoFence(s: string)
    ensures !Contains(StripFences(s), Fence)
    decreases |s|
  {
    if s == [] {
    } else if IsPrefix(FenceJson, s) {
      StripFencesLeavesNoFence(s[|FenceJson|..]);
    } else if IsPrefix(Fence, s) {
      StripFencesLeavesNoFence(s[|Fence|..]);
    } else {
      var rest := StripFences(s[1..]);
      var r := StripFences(s);
      StripFencesLeavesNoFence(s[1..]);
      assert r == [s[0]] + rest;
      assert !IsPrefix(Fence, r) by {
        if IsPrefix(Fence, r) {
          assert r[..3] == Fence;
          assert rest[0] == r[1] == '`' && rest[1] == r[2] == '`';
          TwoLeadingTicksComeFromInput(s[1..]);
          assert false;
        }
      }
      assert r[1..] == rest;
    }
  }

  /** If the output starts with a tick, the input started with one. */
  lemma LeadingTickComesFromInput(u: string)
    requires 1 <= |StripFences(u)| && StripFences(u)[0] == '`'
    ensures 1 <= |u| && u[0] == '`'
  {
  }

  /** If the output starts with two ticks, the input started with two. */
  lemma TwoLeadingTicksComeFromInput(t: string)
    requires 2 <= |StripFences(t)| && StripFences(t)[0] == '`' && StripFences(t)[1] == '`'
    ensures 2 <= |t| && t[0] == '`' && t[1] == '`'
  {
    if !IsPrefix(FenceJson, t) && !IsPrefix(Fence, t) {
      assert StripFences(t) == [t[0]] + StripFences(t[1..]);
      LeadingTickComesFromInput(t[1..]);
    }
  }

  /** Text without any ```` ``` ```` is left alone, and text with one is always changed. */
  lemma {:induction false} StripFencesFixesExactlyFenceFree(s: string)
    ensures StripFences(s) == s <==> !Contains(s, Fence)
    decreases |s|
  {
    if s == [] {
    } else if IsPrefix(FenceJson, s) || IsPrefix(Fence, s) {
      assert s[..|Fence|] == Fence by {
        if IsPrefix(FenceJson, s) { assert s[..|Fence|] == s[..|FenceJson|][..|Fence|]; }
      }
    } else {
      StripFencesFixesExactlyFenceFree(s[1..]);
      assert s == [s[0]] + s[1..];
    }
  }

  /** Removing fences is idempotent. */
  lemma StripFencesIdempotent(s: string)
    ensures StripFences(StripFences(s)) == StripFences(s)
  {
    StripFencesLeavesNoFence(s);
    StripFencesFixesExactlyFenceFree(StripFences(s));
  }

  /** Cleaning is idempotent, so parsing already-cleaned text gives the same value as parsing the raw reply. */
  lemma CleanIdempotent(raw: string)
    ensures Clean(Clean(raw)) == Clean(raw)
    ensures forall decode: string -> Option<Json> :: ParseResponse(decode, Clean(raw)) == ParseResponse(decode, raw)
  {
    var text := Clean(raw);
    assert Clean(text) == text by {
      StripFencesFixesExactlyFenceFree(text);
      TrimIdempotent(StripFences(raw));
    }
    forall decode: string -> Option<Json>
      ensures ParseResponse(decode, text) == ParseResponse(decode, raw)
    {
      assert Clean(text) == Clean(raw);
    }
  }

  /** Any character that does not start a ```` ``` ```` is kept, a tick included: the
      pass deletes the two markers and nothing else. */
  lemma StripFencesKeepsNonMarkerHead(w: string)
    requires 1 <= |w| && !IsPrefix(Fence, w)
    ensures StripFences(w) == [w[0]] + StripFences(w[1..])
  {
  }

  /** A stray tick before a marker survives the pass: ```` `a```b ```` becomes ```` `ab ````. */
  lemma StrayTickSurvives()
    ensures StripFences("`a```b") == "`ab"
  {
    assert "`a```b"[..|Fence|] != Fence by {
      assert "`a```b"[..|Fence|][1] == 'a';
    }
    StripFencesKeepsNonMarkerHead("`a```b");
    assert "`a```b"[1..] == "a```b";
    StripFencesDeletesBareMarker("a", "b");
    assert "a" + (Fence + "b") == "a```b";
    assert StripFences("b") == "b";
  }

  /** A text that starts with a character other than a tick does not start with a ```` ``` ````. */
  lemma PlainHeadStartsNoFence(w: string)
    requires 1 <= |w| && w[0] != '`'
    ensures !IsPrefix(Fence, w)
  {
    if |Fence| <= |w| {
      assert w[..|Fence|][0] == w[0];
    }
  }

  /** A prefix without ticks passes through unchanged, character by character. */
  lemma {:induction false} StripFencesPlainPrefix(p: string, t: string)
    requires forall i :: 0 <= i < |p| ==> p[i] != '`'
    ensures StripFences(p + t) == p + StripFences(t)
    decreases |p|
  {
    if p == [] {
      assert p + t == t;
    } else {
      var w := p + t;
      var tail := p[1..];
      var done := StripFences(t);
      assert StripFences(w) == [p[0]] + StripFences(tail + t) by {
        assert w[0] == p[0];
        assert w[1..] == tail + t;
        PlainHeadStartsNoFence(w);
        StripFencesKeepsNonMarkerHead(w);
      }
      assert StripFences(tail + t) == tail + done by {
        StripFencesPlainPrefix(tail, t);
      }
      assert [p[0]] + (tail + done) == p + done;
    }
  }

  /** A ```` ```json ```` marker at the front is deleted and the pass goes on after it. */
  lemma StripFencesAtJsonMarker(t: string)
    ensures StripFences(FenceJson + t) == StripFences(t)
  {
    assert (FenceJson + t)[..|FenceJson|] == FenceJson;
    assert (FenceJson + t)[|FenceJson|..] == t;
  }

  /** A bare ```` ``` ```` marker at the front, not followed by `json`, is deleted and the pass goes on after it. */
  lemma StripFencesAtBareMarker(t: string)
    requires !IsPrefix("json", t)
    ensures StripFences(Fence + t) == StripFences(t)
  {
    var w := Fence + t;
    assert !IsPrefix(FenceJson, w) by {
      if |FenceJson| <= |w| {
        assert w[..|FenceJson|][3..] == t[..4];
        assert FenceJson[3..] == "json";
      }
    }
    assert w[..|Fence|] == Fence;
    assert w[|Fence|..] == t;
  }

  /** A ```` ```json ```` marker after text free of ticks is deleted; that text is kept. */
  lemma StripFencesDeletesJsonMarker(p: string, t: string)
    requires forall i :: 0 <= i < |p| ==> p[i] != '`'
    ensures StripFences(p + (FenceJson + t)) == p + StripFences(t)
  {
    StripFencesPlainPrefix(p, FenceJson + t);
    StripFencesAtJsonMarker(t);
  }

  /** A bare ```` ``` ```` marker, not followed by `json`, after text free of ticks is deleted; that text is kept. */
  lemma StripFencesDeletesBareMarker(p: string, t: string)
    requires forall i :: 0 <= i < |p| ==> p[i] != '`'
    requires !IsPrefix("json", t)
    ensures StripFences(p + (Fence + t)) == p + StripFences(t)
  {
    StripFencesPlainPrefix(p, Fence + t);
    StripFencesAtBareMarker(t);
  }

  /** A reply wrapped in a ```` ```json ... ``` ```` block parses exactly like the bare
      reply, as long as the reply itself contains no backtick. */
  lemma FencedReplyParsesLikeBare(decode: string -> Option<Json>, p: string)
    requires forall i :: 0 <= i < |p| ==> p[i] != '`'
    ensures Clean(FenceJson + p + Fence) == Clean(p)
    ensures ParseResponse(decode, FenceJson + p + Fence) == ParseResponse(decode, p)
  {
    var w := FenceJson + p + Fence;
    assert IsPrefix(FenceJson, w);
    assert w[|FenceJson|..] == p + Fence;
    StripFencesPlainPrefix(p, Fence);
    assert StripFences(Fence) == [];
    assert p + [] == p;
    StripFencesPlainPrefix(p, []);
  }
}

=== FILE: routing.dfy ===
/** Block classification and path routing of a scraped page (brain.py:143-165).
    The scraper is external: its result is either nothing (`scrape_website`
    swallowed an exception and returned `None`, brain.py:105-108) or a document
    with the three parts the script reads from it. */
module Routing {
  import opened Basics
  import opened Text

  /** What the script reads from a Firecrawl document: the page as Markdown, the
      screenshot URL if any, and the Open-Graph image the metadata adapter of
      brain.py:149 yields (taken here as given). */
  datatype ScrapeDoc = ScrapeDoc(markdown: string, screenshot: Option<string>, ogImage: Option<string>)

  /** Content shorter than this is treated as a block page. */
  const MinContentLength: nat := 300

  /** A page whose lower-cased text contains this is treated as a block page. */
  const BlockMarker: string := "verify"

  /** Only this many characters of the page go into the prompt. */
  const EvidenceLimit: nat := 15000

  /** Where a scraped page sends the analysis. */
  datatype Route =
    | Direct(evidence: string)   // analyse the page text
    | Vision(screenshot: string) // blocked: read the screenshot instead
    | Stuck                      // blocked and no screenshot: raise

  /** `getattr(data, 'markdown', '')`: a failed scrape reads as empty content. */
  function ContentOf(d: Option<ScrapeDoc>): (r: string)
    ensures d.None? ==> r == "" && IsBlocked(r)
    ensures d.Some? ==> r == d.value.markdown
  {
    match d
    case None => ""
    case Some(doc) => doc.markdown
  }

  /** `getattr(data, 'screenshot', None)` kept only when truthy, i.e. present and non-empty. */
  function ScreenshotOf(d: Option<ScrapeDoc>): (r: Option<string>)
    ensures r.Some? <==> d.Some? && d.value.screenshot.Some? && d.value.screenshot.value != ""
    ensures r.Some? ==> r == d.value.screenshot
  {
    match d
    case None => None
    case Some(doc) =>
      match doc.screenshot
      case Some(u) => if u != "" then Some(u) else None
      case None => None
  }

  /** The Open-Graph image of the page, `None` after a failed scrape. */
  function MetaImageOf(d: Option<ScrapeDoc>): Option<string>
  {
    match d
    case None => None
    case Some(doc) => doc.ogImage
  }

  /** `len(content) < 300 or "verify" in content.lower()` (brain.py:152): the page is
      short, or `verify` sits at some offset of its lower-cased text. */
  function IsBlocked(content: string): (r: bool)
    ensures r <==> |content| < MinContentLength || exists i :: OccursAt(Lower(content), BlockMarker, i)
  {
    var lowered := Lower(content);
    ContainsIffOccurs(lowered, BlockMarker);
    assert lowered == Lower(content);
    |content| < MinContentLength || Contains(lowered, BlockMarker)
  }

  /** The three-way decision of brain.py:152-165. A blocked page goes to its
      screenshot when it has one and fails otherwise; any other page is analysed
      from its first 15000 characters. */
  function RouteScrape(d: Option<ScrapeDoc>): (r: Route)
    ensures r.Direct? <==> !IsBlocked(ContentOf(d))
    ensures r.Vision? <==> IsBlocked(ContentOf(d)) && ScreenshotOf(d).Some?
    ensures r.Vision? ==> ScreenshotOf(d) == Some(r.screenshot)
    ensures r.Direct? ==> IsPrefix(r.evidence, ContentOf(d))
    ensures r.Direct? ==> |r.evidence| == if |ContentOf(d)| < EvidenceLimit then |ContentOf(d)| else EvidenceLimit
  {
    var content := ContentOf(d);
    if IsBlocked(content) then
      match ScreenshotOf(d)
      case Some(u) => Vision(u)
      case None => Stuck
    else
      Direct(Take(content, EvidenceLimit))
  }

  /** A failed scrape is a blocked page without a screenshot. */
  lemma FailedScrapeIsStuck()
    ensures IsBlocked(ContentOf(None))
    ensures RouteScrape(None) == Stuck
  {
  }

  /** The block marker is found in any letter case: a page containing "VERIFY",
      "Verify you are human" or any other casing of "verify" is blocked whatever its length. */
  lemma MarkerInAnyCaseBlocks(content: string, w: string)
    requires Contains(content, w)
    requires Lower(w) == BlockMarker
    ensures IsBlocked(content)
  {
    LowerKeepsOccurrence(content, w);
  }

  /** Long pages without the marker are analysed directly; what the prompt embeds is
      their first 15000 characters (all of the page when it is shorter). */
  lemma CleanPageGoesDirect(d: Option<ScrapeDoc>)
    requires |ContentOf(d)| >= MinContentLength
    requires !Contains(Lower(ContentOf(d)), BlockMarker)
    ensures RouteScrape(d) == Direct(Take(ContentOf(d), EvidenceLimit))
    ensures |ContentOf(d)| <= EvidenceLimit ==> RouteScrape(d) == Direct(ContentOf(d))
  {
  }
}

=== FILE: session.dfy ===
/** The session state of the script (brain.py:19-38, 46, 58-60, 111-136, 172-187):
    an append-only history of records, an optional playback record, and the two
    input widgets. Each Streamlit callback or rerun is one transition. */
module SessionState {
  import opened Basics
  import opened JsonValue
  import opened Records
  import opened Analysis

  /** `st.session_state`: `history`, `playback_data`, `url_input`, `img_input`; and
      `listed`, the records whose sidebar buttons the last rerun drew, newest first.
      A button is bound to its record when it is drawn (`args=(item,)` at brain.py:50),
      so a click loads that record even if the history has grown since. */
  datatype Session = Session(
    history: seq<Record>,
    playback: Option<Record>,
    urlInput: string,
    imageInput: Option<Picture>,
    listed: seq<Record>)

  /** brain.py:20-23: no history and no playback; empty widgets; no buttons drawn yet. */
  const Start: Session := Session([], None, "", None, [])

  /** The API keys found at brain.py:68-73, reduced to whether each is present. */
  datatype Keys = Keys(gemini: bool, firecrawl: bool)

  /** The analyse button pressed in this rerun, if any. */
  datatype Press = NoPress | AnalyzeLink | AnalyzeScreenshot

  /** brain.py:113-126: the value of `trigger`. */
  datatype Trigger = LinkTrigger | ImageTrigger(picture: Picture) | PlaybackTrigger(record: Record)

  /** What the result area shows: brain.py:190-205 reads `result`, `score` and `img_url`. */
  datatype View = View(result: map<string, Json>, score: Json, imageUrl: Option<string>)

  /** The page after a rerun: nothing below the inputs; a result view with the colour of
      its score; an error the script caught and showed before `st.stop()`; or an
      exception that escaped the script. */
  datatype Screen = Blank | Shown(view: View, colour: Colour) | Failure(message: string) | Uncaught(message: string)

  /** A rerun's effect: the new session and the screen. */
  datatype Outcome = Outcome(session: Session, screen: Screen)

  /** The events of the session: widget edits, the reset, back and clear buttons,
      a click on the `index`-th sidebar button of the last rerun, and a rerun. A click
      on a button with a callback is its callback followed by a `Rerun`. */
  datatype Event =
    | EditUrl(url: string)
    | PickImage(image: Option<Picture>)
    | ResetLink
    | ResetImage
    | Select(index: nat)
    | Back
    | ClearAll
    | Rerun(press: Press, keys: Keys)

  /** `reversed(xs)`: the last element first. */
  function Reversed<T>(xs: seq<T>): (r: seq<T>)
    ensures |r| == |xs|
    ensures forall k :: 0 <= k < |xs| ==> r[k] == xs[|xs| - 1 - k]
  {
    if xs == [] then [] else Reversed(xs[1..]) + [xs[0]]
  }

  /** brain.py:46: the sidebar lists the history newest first. */
  function RecentScans(s: Session): seq<Record>
  {
    Reversed(s.history)
  }

  /** brain.py:26-28, the link tab's Reset: empties the URL box and ends playback. */
  function ClearUrlInput(s: Session): (r: Session)
    ensures r.urlInput == "" && r.playback.None?
    ensures r.history == s.history && r.imageInput == s.imageInput
  {
    s.(urlInput := "", playback := None)
  }

  /** brain.py:30-32, the screenshot tab's Reset Image: drops the upload and ends playback. */
  function ClearImageInput(s: Session): (r: Session)
    ensures r.imageInput.None? && r.playback.None?
    ensures r.history == s.history && r.urlInput == s.urlInput
  {
    s.(imageInput := None, playback := None)
  }

  /** brain.py:34-35, a sidebar entry's button: play back that record. */
  function LoadHistoryItem(s: Session, item: Record): (r: Session)
    ensures r.playback == Some(item)
    ensures r.history == s.history && r.urlInput == s.urlInput && r.imageInput == s.imageInput
  {
    s.(playback := Some(item))
  }

  /** brain.py:37-38, the Back button: end playback. */
  function ClosePlayback(s: Session): (r: Session)
    ensures r.playback.None?
    ensures r.history == s.history && r.urlInput == s.urlInput && r.imageInput == s.imageInput
  {
    s.(playback := None)
  }

  /** brain.py:58-60, the Clear History button: history and playback go together. */
  function ClearHistory(s: Session): (r: Session)
    ensures r.history == [] && r.playback.None?
    ensures r.urlInput == s.urlInput && r.imageInput == s.imageInput
  {
    s.(history := [], playback := None)
  }

  /** brain.py:46-55 drawn for this session: the buttons now on the sidebar. Nothing
      else in the session changes. */
  function DrawSidebar(s: Session): (r: Session)
    ensures r.listed == ButtonsDrawn(RecentScans(s))
    ensures r.history == s.history && r.playback == s.playback
    ensures r.urlInput == s.urlInput && r.imageInput == s.imageInput
  {
    s.(listed := ButtonsDrawn(RecentScans(s)))
  }

  /** Entry `k` is the newest entry of the history whose score cannot be compared. */
  ghost predicate NewestUncomparable(h: seq<Record>, k: int)
  {
    && 0 <= k < |h|
    && ComparableScore(h[k].score).None?
    && forall j :: k < j < |h| ==> ComparableScore(h[j].score).Some?
  }

  /** The sidebar lists the history newest first, so the first entry it cannot draw is
      the newest entry of the history whose score cannot be compared. */
  lemma SidebarStopsAtNewestUncomparable(s: Session)
    ensures SidebarIndicators(RecentScans(s)).BrokenAt?
        <==> exists k :: 0 <= k < |s.history| && ComparableScore(s.history[k].score).None?
    ensures SidebarIndicators(RecentScans(s)).BrokenAt? ==>
              NewestUncomparable(s.history, |s.history| - 1 - SidebarIndicators(RecentScans(s)).index)
  {
    var h := s.history;
    var listing := RecentScans(s);
    match SidebarIndicators(listing)
    case BrokenAt(i) =>
      var k := |h| - 1 - i;
      assert listing[i] == h[k];
      forall j | k < j < |h|
        ensures ComparableScore(h[j].score).Some?
      {
        assert listing[|h| - 1 - j] == h[j];
      }
      assert NewestUncomparable(h, k);
    case Listed(_) =>
      forall k | 0 <= k < |h|
        ensures ComparableScore(h[k].score).Some?
      {
        assert listing[|h| - 1 - k] == h[k];
      }
  }

  /** The sidebar of brain.py:41-56 for this session: `s <= 45` at brain.py:54 raises
      when a listed score is not a number or a boolean, and that ends the rerun. It
      raises exactly when some entry of the history has such a score. */
  predicate SidebarBreaks(s: Session): (b: bool)
    ensures b <==> exists k :: 0 <= k < |s.history| && ComparableScore(s.history[k].score).None?
  {
    SidebarStopsAtNewestUncomparable(s);
    SidebarIndicators(RecentScans(s)).BrokenAt?
  }

  /** The `TypeError` the sidebar raises: the comparison of the newest score in the
      history that cannot be compared, the first one the sidebar reaches. */
  function SidebarError(s: Session): (m: string)
    requires SidebarBreaks(s)
    ensures exists k :: NewestUncomparable(s.history, k) && m == CompareMessage("<=", s.history[k].score)
  {
    SidebarStopsAtNewestUncomparable(s);
    var i := SidebarIndicators(RecentScans(s)).index;
    assert RecentScans(s)[i] == s.history[|s.history| - 1 - i];
    CompareMessage("<=", RecentScans(s)[i].score)
  }

  /** brain.py:189-196: the result area shows the view with the colour of its score;
      `score < 45` raises when the score is not a number or a boolean. */
  function Display(v: View): (sc: Screen)
    ensures sc.Shown? <==> ComparableScore(v.score).Some?
    ensures sc.Shown? ==> sc.view == v && sc.colour == ResultColour(ComparableScore(v.score).value)
    ensures sc.Shown? || sc.Uncaught?
  {
    match ComparableScore(v.score)
    case Some(n) => Shown(v, ResultColour(n))
    case None => Uncaught(CompareMessage("<", v.score))
  }

  /** brain.py:111-126: a playback record forces the playback trigger; otherwise the
      pressed button decides, and the screenshot button exists only when a file is uploaded. */
  function TriggerOf(s: Session, press: Press): (t: Option<Trigger>)
    ensures s.playback.Some? ==> t == Some(PlaybackTrigger(s.playback.value))
    ensures s.playback.None? ==> (t.Some? <==> press.AnalyzeLink? || (press.AnalyzeScreenshot? && s.imageInput.Some?))
    ensures t.Some? && t.value.ImageTrigger? ==> s.imageInput == Some(t.value.picture)
  {
    if s.playback.Some? then Some(PlaybackTrigger(s.playback.value))
    else
      match press
      case NoPress => None
      case AnalyzeLink => Some(LinkTrigger)
      case AnalyzeScreenshot =>
        match s.imageInput
        case Some(p) => Some(ImageTrigger(p))
        case None => None
  }

  /** The request a non-playback trigger makes: the link in the URL box, or the uploaded file. */
  function RequestOf(s: Session, t: Trigger): Request
    requires !t.PlaybackTrigger?
  {
    match t
    case LinkTrigger => LinkRequest(s.urlInput)
    case ImageTrigger(p) => ScreenshotRequest(p)
  }

  /** brain.py:129-196 for a new analysis: without a model key the empty view is
      shown; otherwise the analysis runs and, only when it completes, its record is
      appended and displayed. A failed analysis is shown as an error and changes nothing. */
  function Perform(s: Session, req: Request, keys: Keys, c: Collaborators): (o: Outcome)
    ensures o.screen.Failure? <==> keys.gemini && Analyze(req, keys.firecrawl, c).Err?
    ensures o.screen.Failure? ==> o.session == s && o.screen.message == Analyze(req, keys.firecrawl, c).message
    ensures !keys.gemini ==> o.session == s && o.screen == Shown(View(map[], Num(0), None), Red)
    ensures keys.gemini && Analyze(req, keys.firecrawl, c).Ok? ==>
              var rec := Analyze(req, keys.firecrawl, c).value;
              o.session == s.(history := s.history + [rec])
              && o.screen == Display(View(rec.result, rec.score, rec.imageUrl))
  {
    if !keys.gemini then Outcome(s, Display(View(map[], Num(0), None)))
    else
      match Analyze(req, keys.firecrawl, c)
      case Err(m) => Outcome(s, Failure(m))
      case Ok(rec) => Outcome(s.(history := s.history + [rec]), Display(View(rec.result, rec.score, rec.imageUrl)))
  }

  /** brain.py:41-196: one rerun. The sidebar is drawn first, and a score it cannot
      compare ends the rerun before anything else. Otherwise playback shows the stored
      record and needs no key, and any other trigger performs an analysis. Besides the
      buttons drawn, only the history can change, by one appended record, and a failed
      run changes nothing else. */
  function Run(s: Session, press: Press, keys: Keys, c: Collaborators): (o: Outcome)
    ensures o.session.listed == ButtonsDrawn(RecentScans(s))
    ensures SidebarBreaks(s) ==> o == Outcome(DrawSidebar(s), Uncaught(SidebarError(s)))
    ensures o.session.playback == s.playback && o.session.urlInput == s.urlInput
    ensures o.session.imageInput == s.imageInput
    ensures o.session.history == s.history || exists rec :: o.session.history == s.history + [rec]
    ensures o.screen.Failure? ==> o.session == DrawSidebar(s)
  {
    var drawn := DrawSidebar(s);
    if SidebarBreaks(s) then Outcome(drawn, Uncaught(SidebarError(s)))
    else
      match TriggerOf(s, press)
      case None => Outcome(drawn, Blank)
      case Some(t) =>
        if t.PlaybackTrigger? then Outcome(drawn, Display(View(t.record.result, t.record.score, t.record.imageUrl)))
        else Perform(drawn, RequestOf(s, t), keys, c)
  }

  /** Only a button the last rerun drew can be clicked. */
  predicate Allowed(s: Session, e: Event)
  {
    e.Select? ==> e.index < |s.listed|
  }

  /** The session after one event. Clear History is evaluated after the sidebar
      (brain.py:58), so it has no effect while the sidebar raises; otherwise its
      `st.rerun()` draws an empty sidebar. Only a rerun or Clear History changes the
      history or the buttons drawn, and only the widgets and resets change the inputs. */
  function Step(s: Session, e: Event, c: Collaborators): (r: Session)
    requires Allowed(s, e)
    ensures r.history == s.history || e.Rerun? || (e.ClearAll? && r.history == [])
    ensures r.listed != s.listed ==> e.Rerun? || e.ClearAll?
    ensures r.urlInput != s.urlInput ==> e.EditUrl? || e.ResetLink?
    ensures r.imageInput != s.imageInput ==> e.PickImage? || e.ResetImage?
  {
    match e
    case EditUrl(u) => s.(urlInput := u)
    case PickImage(p) => s.(imageInput := p)
    case ResetLink => ClearUrlInput(s)
    case ResetImage => ClearImageInput(s)
    case Select(k) => LoadHistoryItem(s, s.listed[k])
    case Back => ClosePlayback(s)
    case ClearAll => DrawSidebar(if SidebarBreaks(s) then s else ClearHistory(s))
    case Rerun(press, keys) => Run(s, press, keys, c).session
  }

  /** The session after a sequence of events, from `s`; an event the page does not offer is ignored. */
  function Replay(s: Session, es: seq<Event>, c: Collaborators): Session
    decreases |es|
  {
    if es == [] then s
    else Replay(if Allowed(s, es[0]) then Step(s, es[0], c) else s, es[1..], c)
  }

  /** The playback record, when there is one, and the record of every drawn button
      are entries of the history. */
  ghost predicate PlaybackListed(s: Session)
  {
    && (s.playback.Some? ==> s.playback.value in s.history)
    && forall r :: r in s.listed ==> r in s.history
  }

  /** Drawing the sidebar binds its buttons to entries of the history. */
  lemma DrawnButtonsAreEntries(s: Session)
    ensures forall r :: r in ButtonsDrawn(RecentScans(s)) ==> r in s.history
  {
    var d := ButtonsDrawn(RecentScans(s));
    forall r | r in d
      ensures r in s.history
    {
      var i :| 0 <= i < |d| && d[i] == r;
      assert RecentScans(s)[i] == s.history[|s.history| - 1 - i];
    }
  }

  /** Every event keeps the playback record among the history entries; in particular
      Clear History never leaves a playback record behind. */
  lemma StepKeepsPlaybackListed(s: Session, e: Event, c: Collaborators)
    requires Allowed(s, e)
    requires PlaybackListed(s)
    ensures PlaybackListed(Step(s, e, c))
  {
    match e
    case Select(k) =>
      assert s.listed[k] in s.listed;
    case Rerun(press, keys) =>
      var o := Run(s, press, keys, c);
      DrawnButtonsAreEntries(s);
      if o.session.history != s.history {
        var rec :| o.session.history == s.history + [rec];
        assert forall r :: r in s.history ==> r in o.session.history;
      }
    case ClearAll =>
      DrawnButtonsAreEntries(s);
    case _ =>
  }

  /** Every session reached from the start keeps its playback record among the history entries. */
  lemma {:induction false} ReplayKeepsPlaybackListed(s: Session, es: seq<Event>, c: Collaborators)
    requires PlaybackListed(s)
    ensures PlaybackListed(Replay(s, es, c))
    decreases |es|
  {
    if es != [] {
      if Allowed(s, es[0]) {
        StepKeepsPlaybackListed(s, es[0], c);
      }
      ReplayKeepsPlaybackListed(if Allowed(s, es[0]) then Step(s, es[0], c) else s, es[1..], c);
    }
  }

  /** brain.py:20-23 starts with no history and no playback, so the property holds for every reachable session. */
  lemma ReachableKeepsPlaybackListed(es: seq<Event>, c: Collaborators)
    ensures PlaybackListed(Replay(Start, es, c))
  {
    ReplayKeepsPlaybackListed(Start, es, c);
  }

  /** The history only grows, by at most one record per event, except that Clear History
      empties it; while the sidebar raises, Clear History is never reached and its click
      only redraws the sidebar. */
  lemma StepAppendsOnly(s: Session, e: Event, c: Collaborators)
    requires Allowed(s, e)
    ensures e.ClearAll? && !SidebarBreaks(s) ==> Step(s, e, c).history == [] && Step(s, e, c).playback == None
    ensures e.ClearAll? && SidebarBreaks(s) ==> Step(s, e, c) == DrawSidebar(s)
    ensures !e.ClearAll? ==> s.history <= Step(s, e, c).history
    ensures !e.ClearAll? ==> |Step(s, e, c).history| <= |s.history| + 1
  {
    if e.Rerun? {
      var o := Run(s, e.press, e.keys, c);
      if o.session.history != s.history {
        var rec :| o.session.history == s.history + [rec];
      }
    }
  }

  /** Once the sidebar raises, no event changes the history again, so every later rerun
      raises the same way: the session is stuck. */
  lemma SidebarBreakIsPermanent(s: Session, e: Event, c: Collaborators)
    requires Allowed(s, e)
    requires SidebarBreaks(s)
    ensures Step(s, e, c).history == s.history
    ensures SidebarBreaks(Step(s, e, c))
  {
  }

  /** Back and both resets clear the playback record and leave the history alone;
      clicking a sidebar button plays back the record bound to it when it was drawn. */
  lemma PlaybackTransitions(s: Session, e: Event, c: Collaborators)
    requires Allowed(s, e)
    ensures e.Back? || e.ResetLink? || e.ResetImage? ==>
              Step(s, e, c).playback == None && Step(s, e, c).history == s.history
    ensures e.ResetLink? ==> Step(s, e, c).urlInput == "" && Step(s, e, c).imageInput == s.imageInput
    ensures e.ResetImage? ==> Step(s, e, c).imageInput == None && Step(s, e, c).urlInput == s.urlInput
    ensures e.Select? ==> Step(s, e, c).playback == Some(s.listed[e.index])
  {
  }

  /** The buttons of a rerun are drawn before its analysis appends (brain.py:50 runs
      before brain.py:176). Right after a rerun that drew the whole sidebar, button `k`
      can be clicked and is bound to the record that was `k`-th newest before the rerun;
      after an append that is the record `k + 2` places from the end of the new history,
      not `k + 1`. A click plays back the bound record (`PlaybackTransitions`). */
  lemma ButtonsBoundBeforeAppend(s: Session, press: Press, keys: Keys, c: Collaborators, k: nat)
    requires !SidebarBreaks(s)
    requires k < |s.history|
    ensures var o := Run(s, press, keys, c).session;
            Allowed(o, Select(k)) && o.listed[k] == s.history[|s.history| - 1 - k]
    ensures var o := Run(s, press, keys, c).session;
            |o.history| == |s.history| + 1 ==> o.listed[k] == o.history[|o.history| - 2 - k]
  {
    BoundButton(s, Run(s, press, keys, c).session, k);
  }

  /** Button `k` of a whole sidebar drawn from `s`, in a session whose history is that
      of `s` or extends it by one record. */
  lemma BoundButton(s: Session, o: Session, k: nat)
    requires !SidebarBreaks(s)
    requires o.listed == ButtonsDrawn(RecentScans(s))
    requires o.history == s.history || exists rec :: o.history == s.history + [rec]
    requires k < |s.history|
    ensures Allowed(o, Select(k)) && o.listed[k] == s.history[|s.history| - 1 - k]
    ensures |o.history| == |s.history| + 1 ==> o.listed[k] == o.history[|o.history| - 2 - k]
  {
    assert o.listed == RecentScans(s);
    if |o.history| == |s.history| + 1 {
      var rec :| o.history == s.history + [rec];
      assert o.history[|o.history| - 2 - k] == s.history[|s.history| - 1 - k];
    }
  }

  /** While a record is played back every rerun replays it, whatever is pressed and
      whatever keys exist, and changes nothing but the buttons drawn; unless the sidebar
      raises first. In a
      session whose playback record is listed, a drawn sidebar means the replayed
      score can be compared, so the replay is shown. */
  lemma PlaybackForcesReplay(s: Session, press: Press, keys: Keys, c: Collaborators)
    requires s.playback.Some?
    ensures SidebarBreaks(s) ==> Run(s, press, keys, c) == Outcome(DrawSidebar(s), Uncaught(SidebarError(s)))
    ensures !SidebarBreaks(s) ==>
              var d := s.playback.value;
              Run(s, press, keys, c) == Outcome(DrawSidebar(s), Display(View(d.result, d.score, d.imageUrl)))
    ensures PlaybackListed(s) && !SidebarBreaks(s) ==> Run(s, press, keys, c).screen.Shown?
  {
    if PlaybackListed(s) && !SidebarBreaks(s) {
      var d := s.playback.value;
      var h := s.history;
      var i :| 0 <= i < |h| && h[i] == d;
      assert RecentScans(s)[|h| - 1 - i] == d;
      assert SidebarIndicator(d).Some?;
    }
  }

  /** A rerun appends a record exactly when the sidebar is drawn, it is not a playback,
      something was triggered, the model key is present and the analysis completed; the
      record appended is that analysis' record and it is also what is displayed.
      Otherwise the history is untouched. */
  lemma RunAppendsExactlyOnCompletion(s: Session, press: Press, keys: Keys, c: Collaborators)
    ensures var o := Run(s, press, keys, c);
            var t := TriggerOf(s, press);
            (|o.session.history| == |s.history| + 1 <==>
              (!SidebarBreaks(s) && t.Some? && !t.value.PlaybackTrigger? && keys.gemini
               && Analyze(RequestOf(s, t.value), keys.firecrawl, c).Ok?))
    ensures var o := Run(s, press, keys, c);
            var t := TriggerOf(s, press);
            (!SidebarBreaks(s) && t.Some? && !t.value.PlaybackTrigger? && keys.gemini
              && Analyze(RequestOf(s, t.value), keys.firecrawl, c).Ok?) ==>
              var rec := Analyze(RequestOf(s, t.value), keys.firecrawl, c).value;
              o.session.history == s.history + [rec]
              && o.screen == Display(View(rec.result, rec.score, rec.imageUrl))
    ensures var o := Run(s, press, keys, c);
            |o.session.history| != |s.history| + 1 ==> o.session == DrawSidebar(s)
  {
  }

  /** A record whose score cannot be compared (a string, `null`, a list or an object)
      is still appended, but it breaks the display of its own run and, listed first,
      the sidebar of every later rerun. */
  lemma UncomparableScoreBreaksSession(s: Session, rec: Record)
    requires ComparableScore(rec.score).None?
    ensures Display(View(rec.result, rec.score, rec.imageUrl)) == Uncaught(CompareMessage("<", rec.score))
    ensures SidebarBreaks(s.(history := s.history + [rec]))
    ensures SidebarIndicators(RecentScans(s.(history := s.history + [rec]))) == BrokenAt(0)
  {
    NewestScanListedFirst(s, rec);
  }

  /** Without a model key a triggered analysis displays the empty result with score 0 in
      red and records nothing, unless the sidebar raises first. */
  lemma MissingKeyShowsEmptyView(s: Session, press: Press, keys: Keys, c: Collaborators)
    requires s.playback.None? && TriggerOf(s, press).Some? && !keys.gemini
    ensures !SidebarBreaks(s) ==> Run(s, press, keys, c) == Outcome(DrawSidebar(s), Shown(View(map[], Num(0), None), Red))
    ensures SidebarBreaks(s) ==> Run(s, press, keys, c) == Outcome(DrawSidebar(s), Uncaught(SidebarError(s)))
  {
  }

  /** The sidebar lists the newest record first: after a completed analysis its record
      heads the list, followed by the earlier list unchanged. */
  lemma NewestScanListedFirst(s: Session, rec: Record)
    ensures RecentScans(s.(history := s.history + [rec])) == [rec] + RecentScans(s)
  {
  }
}

=== FILE: text.dfy ===
/** String helpers with Python's meaning, restricted to ASCII: substring test
    (`sub in s`), `lower()`, slicing `s[:n]` and `strip()`. */
module Text {

  /** `p` is a prefix of `s`. */
  predicate IsPrefix(p: string, s: string)
  {
    |p| <= |s| && s[..|p|] == p
  }

  /** Python's `sub in s`: `sub` occurs somewhere in `s` (the empty string occurs everywhere). */
  predicate Contains(s: string, sub: string)
    decreases |s|
  {
    IsPrefix(sub, s) || (|s| > 0 && Contains(s[1..], sub))
  }

  /** `sub` sits in `s` at offset `i`. */
  ghost predicate OccursAt(s: string, sub: string, i: int)
  {
    0 <= i && i + |sub| <= |s| && s[i..i + |sub|] == sub
  }

  /** `Contains` is Python's `sub in s`: it holds exactly when `sub` sits at some offset of `s`. */
  lemma {:induction false} ContainsIffOccurs(s: string, sub: string)
    ensures Contains(s, sub) <==> exists i :: OccursAt(s, sub, i)
    decreases |s|
  {
    if IsPrefix(sub, s) {
      assert OccursAt(s, sub, 0);
    } else if |s| > 0 {
      ContainsIffOccurs(s[1..], sub);
      if Contains(s[1..], sub) {
        var i :| OccursAt(s[1..], sub, i);
        assert s[1..][i..i + |sub|] == s[i + 1..i + 1 + |sub|];
        assert OccursAt(s, sub, i + 1);
      }
      if exists i :: OccursAt(s, sub, i) {
        var i :| OccursAt(s, sub, i);
        if i > 0 {
          assert s[1..][i - 1..i - 1 + |sub|] == s[i..i + |sub|];
          assert OccursAt(s[1..], sub, i - 1);
        }
      }
    }
  }

  /** An occurrence inside `s[k..]` is an occurrence inside `s`. */
  lemma {:induction false} ContainsInSuffix(s: string, k: nat, sub: string)
    requires k <= |s|
    requires Contains(s[k..], sub)
    ensures Contains(s, sub)
    decreases k
  {
    if k > 0 {
      assert s[1..][k - 1..] == s[k..];
      ContainsInSuffix(s[1..], k - 1, sub);
    } else {
      assert s[k..] == s;
    }
  }

  /** An occurrence inside `s[..k]` is an occurrence inside `s`. */
  lemma {:induction false} ContainsInPrefix(s: string, k: nat, sub: string)
    requires k <= |s|
    requires Contains(s[..k], sub)
    ensures Contains(s, sub)
    decreases |s|
  {
    if IsPrefix(sub, s[..k]) {
      assert s[..|sub|] == s[..k][..|sub|];
    } else {
      assert |s[..k]| > 0 && Contains(s[..k][1..], sub);
      assert s[..k][1..] == s[1..][..k - 1];
      ContainsInPrefix(s[1..], k - 1, sub);
    }
  }

  /** ASCII upper-case letters map to lower case; every other character is unchanged. */
  function LowerChar(c: char): char
  {
    if 'A' <= c <= 'Z' then (c as int - 'A' as int + 'a' as int) as char else c
  }

  /** `s.lower()` with ASCII case folding. */
  function Lower(s: string): (r: string)
    ensures |r| == |s|
    ensures forall i {:trigger r[i]} :: 0 <= i < |s| ==> r[i] == LowerChar(s[i])
  {
    if s == [] then [] else [LowerChar(s[0])] + Lower(s[1..])
  }

  /** Lower-casing keeps prefixes: if `p` starts `s`, then `p.lower()` starts `s.lower()`. */
  lemma LowerKeepsPrefix(p: string, s: string)
    requires IsPrefix(p, s)
    ensures IsPrefix(Lower(p), Lower(s))
  {
  }

  /** Lower-casing keeps every occurrence: if `w` occurs in `s`, then `w.lower()` occurs in `s.lower()`. */
  lemma {:induction false} LowerKeepsOccurrence(s: string, w: string)
    requires Contains(s, w)
    ensures Contains(Lower(s), Lower(w))
    decreases |s|
  {
    if IsPrefix(w, s) {
      LowerKeepsPrefix(w, s);
    } else {
      LowerKeepsOccurrence(s[1..], w);
      assert Lower(s)[1..] == Lower(s[1..]);
    }
  }

  /** Python's `s[:n]`: the first `n` characters, or all of `s` when it is shorter. */
  function Take(s: string, n: nat): (r: string)
    ensures IsPrefix(r, s)
    ensures |r| == if |s| < n then |s| else n
  {
    if |s| <= n then s else s[..n]
  }

  /** The characters below 128 that Python's `str.isspace()` accepts:
      tab, line feed, vertical tab, form feed, carriage return,
      the four separators 28..31, and space. */
  predicate IsSpace(c: char)
  {
    (9 <= c as int <= 13) || (28 <= c as int <= 32)
  }

  /** Every character of `s` is white space. */
  predicate AllSpace(s: string)
  {
    forall i :: 0 <= i < |s| ==> IsSpace(s[i])
  }

  /** `s.lstrip()`: the longest suffix of `s` that does not start with white space. */
  function TrimLeft(s: string): (r: string)
    ensures |r| <= |s| && r == s[|s| - |r|..]
    ensures AllSpace(s[..|s| - |r|])
    ensures r == [] || !IsSpace(r[0])
    decreases |s|
  {
    if |s| > 0 && IsSpace(s[0]) then
      var r := TrimLeft(s[1..]);
      var n := |s| - |r|;
      assert AllSpace(s[..n]) by {
        forall i | 0 <= i < n
          ensures IsSpace(s[..n][i])
        {
          if i > 0 { assert s[..n][i] == s[1..][..n - 1][i - 1]; }
        }
      }
      r
    else s
  }

  /** `s.rstrip()`: the longest prefix of `s` that does not end with white space. */
  function TrimRight(s: string): (r: string)
    ensures |r| <= |s| && r == s[..|r|]
    ensures AllSpace(s[|r|..])
    ensures r == [] || !IsSpace(r[|r| - 1])
    decreases |s|
  {
    if |s| > 0 && IsSpace(s[|s| - 1]) then
      var r := TrimRight(s[..|s| - 1]);
      assert AllSpace(s[|r|..]) by {
        forall i | 0 <= i < |s| - |r|
          ensures IsSpace(s[|r|..][i])
        {
          if i < |s| - 1 - |r| { assert s[|r|..][i] == s[..|s| - 1][|r|..][i]; }
        }
      }
      r
    else s
  }

  /** `s.strip()`: drop white space at both ends. The result is empty exactly
      when `s` is all white space, and otherwise neither starts nor ends with it. */
  function Trim(s: string): (r: string)
    ensures |r| <= |s|
    ensures r == [] || (!IsSpace(r[0]) && !IsSpace(r[|r| - 1]))
    ensures r == [] <==> AllSpace(s)
  {
    var l := TrimLeft(s);
    var r := TrimRight(l);
    assert r == [] ==> AllSpace(s) by {
      if r == [] {
        assert AllSpace(l[0..]);
        assert s == s[..|s| - |l|] + l;
      }
    }
    r
  }

  /** The trimmed text occurs in the original, so whatever occurs in the trimmed text occurs in the original. */
  lemma TrimmedOccurrenceIsOriginal(s: string, sub: string)
    ensures Contains(Trim(s), sub) ==> Contains(s, sub)
  {
    if Contains(Trim(s), sub) {
      var l := TrimLeft(s);
      var k := |s| - |l|;
      assert l == s[k..];
      ContainsInPrefix(l, |Trim(s)|, sub);
      ContainsInSuffix(s, k, sub);
    }
  }

  /** Stripping is a normal form: text wrapped in white space on both sides strips
      back to the text, provided the text itself has no white space at its ends. */
  lemma {:induction false} TrimUnwraps(pre: string, core: string, post: string)
    requires AllSpace(pre) && AllSpace(post)
    requires core == [] || (!IsSpace(core[0]) && !IsSpace(core[|core| - 1]))
    ensures Trim(pre + core + post) == core
  {
    var w := pre + core + post;
    if core == [] {
      assert AllSpace(w) by {
        assert w == pre + post;
      }
    } else {
      assert w == pre + (core + post);
      assert !AllSpace(core + post) by {
        assert (core + post)[0] == core[0];
      }
      assert TrimLeft(w) == core + post by {
        TrimLeftSkips(pre, core + post);
      }
      assert TrimRight(core + post) == core by {
        TrimRightSkips(core, post);
      }
    }
  }

  /** `lstrip` drops exactly a leading run of white space. */
  lemma {:induction false} TrimLeftSkips(pre: string, rest: string)
    requires AllSpace(pre)
    requires rest == [] || !IsSpace(rest[0]) || AllSpace(rest)
    ensures TrimLeft(pre + rest) == (if AllSpace(rest) then [] else rest)
    decreases |pre|
  {
    if pre == [] {
      assert pre + rest == rest;
    } else {
      assert (pre + rest)[1..] == pre[1..] + rest;
      TrimLeftSkips(pre[1..], rest);
    }
  }

  /** `rstrip` drops exactly a trailing run of white space. */
  lemma {:induction false} TrimRightSkips(core: string, post: string)
    requires AllSpace(post)
    requires core == [] || !IsSpace(core[|core| - 1])
    ensures TrimRight(core + post) == core
    decreases |post|
  {
    if post == [] {
      assert core + post == core;
    } else {
      assert (core + post)[..|core + post| - 1] == core + post[..|post| - 1];
      TrimRightSkips(core, post[..|post| - 1]);
    }
  }

  /** Stripping twice is stripping once. */
  lemma TrimIdempotent(s: string)
    ensures Trim(Trim(s)) == Trim(s)
  {
  }
}
